=== FILE: README.md ===
# flying-squirrel front-end logic in Dafny

A model of the logic of a browser front-end. The front-end pages through a product
catalog and a list of image-recognition tasks, and shows per-image processing
results. The model covers the parts of the front-end that are decisions rather than
rendering:

- **Request helper** (`Api`). Classifies one HTTP exchange into the
  `{data, success, error}` envelope. The four cases are network failure, synthesised
  HTTP error, pass-through server error and success. The module also covers header
  merging and the list endpoints' URLs.
- **Accumulating paginated query** (`Pagination`). Maps a page fetch to a page or an
  error and computes the next-offset cursor. It also derives the item list and total
  from the loaded pages, and builds the query keys.
- **View rules** taken from the components:
  - the upload selection list (`ImageUpload`);
  - the processing-history tallies and summary line (`TaskResults`);
  - the result card's labels, guards and counts (`ResultCard`);
  - the catalog card's badge, description and predicates (`CatalogItemCard`);
  - the catalog page's incomplete tally and alert (`CatalogRoute`).

The shared pieces are:

- `ApiTypes`: the records.
- `Decimal`: how integral numbers of magnitude below 10^21 print in template
  literals, with its inverse.
- `Text`: `indexOf`, `replace`, `slice(0, 8) + '...'` and `join`.
- `Wrappers`: `Option` and `Result`.

Everything is a pure function over immutable datatypes.

An exchange is an `Outcome`: either `fetch` threw (an `Error` with its message, or
some other value), or the server answered with a status, a status text and a body.
The body either fails to parse (the `SyntaxError` message is kept) or yields one JSON
value. On a 2xx the code reads that value as the payload. Otherwise it passes the
value on as the envelope's error: either `null`, or a value whose `error`, `message`,
`status_code` and `details` fields may each be missing. A failed envelope's placeholder
`{}` data is `None`.

Four behaviours of the code worth noting:

- **Reported total.** It is the FIRST page's `total`, not the most recent one's
  (`src/hooks/useApi.ts:37`). The cursor, however, uses the LAST page's total
  (`src/hooks/useApi.ts:31`).
- **No schema validation.** The request helper validates nothing, so there is no
  "Validation Error" kind. A 2xx whose body does not parse is reported as a
  "Network Error" with status code 0. A 2xx body that parses is cast to the
  expected type unchecked, and the hook returns it as a page.
- **Empty error messages.** A thrown `Error` with an empty message, or a server error
  whose `message` is empty, makes the hook throw the collection's fallback text. The
  hook uses `||`, not `??`. The same happens for a server error body that is `null`
  or has no `message`.
- **Files dropped during an upload.** The drop zone stays active while an upload is
  pending, and the success handler clears the selection current at that moment. A
  file dropped in that window is not part of the posted request, and a successful
  upload discards it anyway (`src/components/ir-tasks/ImageUploadInterface.tsx:50-63`).

## Model

| member | source | states |
|---|---|---|
| `Api.ApiRequest` | src/lib/api.ts:21-58 | `success` holds exactly when no error is attached and data is present. It holds exactly for a 2xx with a parseable body, whose value becomes the data. A thrown fetch gives 'Network Error', status 0, and the thrown Error's message or 'Unknown network error'. A 2xx with an unparseable body gives the same 'Network Error' kind. A non-2xx passes a parsed body through unchanged, a `null` body as a `null` error, and otherwise gives 'Unknown Error' with the HTTP status as status code. |
| `Api.SynthesizedMessageNamesStatus` | src/lib/api.ts:28-32 | A non-2xx response with an unparseable body gets the message `HTTP <status>: <statusText>`. The status is printed as `${status}` prints it, with no leading zeros (a minus sign, then such digits, for a negative status), and it can be read back from that message. |
| `Api.EffectiveHeaders` | src/lib/api.ts:15-19 | The sent headers are `X-API-Key` and `Content-Type: application/json` plus the caller's headers. The caller's value wins on a clash. A default survives only where the caller did not set it. |
| `Api.FetchArguments` | src/lib/api.ts:13-25 | The endpoint is used verbatim as the URL. The other options are forwarded unchanged, with only the headers replaced by the merged set. |
| `Api.EndpointDefaults` | src/lib/api.ts:61-78 | Omitted arguments mean offset 0 and limit 50, e.g. `/v2/catalog-items?offset=0&limit=50`. |
| `Api.ListEndpointInjective` | src/lib/api.ts:66 | Two list URLs of one collection are equal only when offset and limit are equal, so distinct page requests never share a URL. |
| `Api.CatalogAndTaskEndpointsDiffer` | src/lib/api.ts:61-78 | A catalog URL is never a task URL, whatever the arguments. |
| `Decimal.ParseIntRoundTrip` | src/lib/api.ts:66 | Parsing the printed form of an integer gives the integer back, which is what makes the URL and message numbers readable. |
| `Pagination.QueryKey` | src/hooks/useApi.ts:16-19 | The key is the collection key followed by the page size. The page size is 50 when omitted. |
| `Pagination.QueryKeySharedIff` | src/hooks/useApi.ts:5-19 | Two hooks share cached pages iff they list the same collection with the same page size. |
| `Pagination.PageOrError` | src/hooks/useApi.ts:20-26 | A page is produced iff the envelope succeeded, and it is the envelope's data. A failure throws the error's message when the error is a value with a non-empty message. For a `null` error, a missing message or an empty one it throws the fallback text. |
| `Pagination.FetchPage` | src/hooks/useApi.ts:20-26 | Composed with the request helper, a page results exactly from a 2xx with a parseable body, and it is that body. Every other exchange is an error and never a page. |
| `Pagination.FailedFetchMessage` | src/hooks/useApi.ts:22-25 | A thrown fetch yields an error, never a page. The error is the Error's message, or the collection's fallback when that message is empty, or 'Unknown network error' for a non-Error. |
| `Pagination.HttpFailureMessage` | src/hooks/useApi.ts:22-25 | A non-2xx with an unparseable body makes the hook throw `HTTP <status>: <statusText>`. |
| `Pagination.ServerErrorMessage` | src/hooks/useApi.ts:22-23 | A non-2xx with a parseable body never yields a page. The hook throws the body's message when it is a non-empty string. For a `null` body, a body without a message or one with an empty message it throws the collection's fallback text. |
| `Pagination.NextPageParam` | src/hooks/useApi.ts:28-32 | After n loaded pages, a next page exists iff n × limit is below the last page's total, and then its offset is n × limit. |
| `Pagination.NextPageParamIgnoresEchoedOffsets` | src/hooks/useApi.ts:29-31 | The cursor depends only on the page count and the last total, not on the offsets the server echoed. |
| `Pagination.DrainPages` | src/hooks/useApi.ts:27-32 | The total is fixed and limit ≥ 1. The first request is at offset 0 and request i is at i × limit. Each request is the cursor's answer after the earlier pages. The cursor ends after exactly ⌈total/limit⌉ pages, or after one page when total ≤ 0. |
| `Pagination.CursorChain` | src/hooks/useApi.ts:28-32 | Pages of one total at offsets 0, limit, 2 × limit, …, each later one below the total, are exactly the chain the cursor walks. |
| `Pagination.PageEndpointInjective` | src/hooks/useApi.ts:21 | Two different offsets of one collection, at one page size, are requested from two different URLs. |
| `Pagination.CursorUrls` | src/hooks/useApi.ts:20-31 | The URL of each cursor offset is that collection's list URL for the offset and the page size, and no two of these URLs are equal. |
| `Pagination.DrainCursor` | src/hooks/useApi.ts:20-32 | The same run for one collection also yields the URL of each request. Request i goes to the list URL for offset i × limit, and no URL is requested twice. |
| `Pagination.LoadMoreAppends` | src/hooks/useApi.ts:36 | Loading one more page appends exactly that page's items after the items already shown. |
| `Pagination.FlattenConcat` | src/hooks/useApi.ts:36 | The aggregate of two runs of pages is the concatenation of their aggregates, and the item counts add. |
| `Pagination.FlattenLength` | src/hooks/useApi.ts:36 | The aggregated list has as many items as all pages together. |
| `Pagination.FlattenIndex` | src/hooks/useApi.ts:36 | Item j of page i sits at position (items of earlier pages) + j, so the list keeps page order and item order. |
| `Pagination.ReportedTotalIsFirstPages` | src/hooks/useApi.ts:37 | The reported total is the first page's total, and loading more pages never changes it. With no data, or no page loaded, it is 0. |
| `Pagination.FivePagesExample` | src/hooks/useApi.ts:27-37 | Five items in pages of two: after two pages the items are 1–4 and the next offset is 4. After three pages all five items are shown and the cursor ends. A later page's different total is not reported. |
| `ImageUpload.OnDrop` | src/components/ir-tasks/ImageUploadInterface.tsx:27-29 | The new selection is the old selection followed by the accepted files, both in their order. |
| `ImageUpload.RemoveFileSpec` | src/components/ir-tasks/ImageUploadInterface.tsx:46-48 | Removing position i drops exactly that file and keeps the others in order. An out-of-range i changes nothing. |
| `ImageUpload.DropThenRemoveRestores` | src/components/ir-tasks/ImageUploadInterface.tsx:27-48 | Removing a file right after dropping it restores the earlier selection. |
| `ImageUpload.SubmitStart` | src/components/ir-tasks/ImageUploadInterface.tsx:50-58 | A request is issued iff the selection at the click is non-empty. It posts exactly that selection for the task's UUID. |
| `ImageUpload.SubmitSettled` | src/components/ir-tasks/ImageUploadInterface.tsx:53-62 | When the upload settles, success empties the selection current at that moment, and failure leaves it as it is. |
| `ImageUpload.HandleSubmit` | src/components/ir-tasks/ImageUploadInterface.tsx:50-63 | With no edit while the upload is pending: an empty selection issues no request and stays as it is. Otherwise the whole selection is posted for the task. It is cleared after a successful upload and kept after a failed one. |
| `ImageUpload.DropDuringUpload` | src/components/ir-tasks/ImageUploadInterface.tsx:27-62 | Files dropped while an upload is pending are not in the posted request. A successful upload clears them with the rest, and a failed one keeps them after the earlier files. |
| `ImageUpload.SelectionPanelLifecycle` | src/components/ir-tasks/ImageUploadInterface.tsx:151-181 | The panel and the submit button disappear after a successful submit and appear once a file is dropped. |
| `ImageUpload.SubmitLabel` | src/components/ir-tasks/ImageUploadInterface.tsx:196-197 | The label is "Submit N Image" with N as a canonical numeral (no leading zero), and it ends in "s" iff N ≠ 1. |
| `ImageUpload.FeatureLabels` | src/components/ir-tasks/ImageUploadInterface.tsx:77-94 | Each flag reads 'Enabled' iff it is true and 'Disabled' otherwise. The realogram and shares flags are independent. |
| `TaskResults.CountStatus` | src/components/ir-tasks/TaskResultsSection.tsx:45-49 | A tally never exceeds the number of results. |
| `TaskResults.TallyPartition` | src/components/ir-tasks/TaskResultsSection.tsx:45-49 | Every result is counted exactly once: in one of the three tallies, or as a result of unknown status. |
| `TaskResults.NoUnknownIff` | src/components/ir-tasks/TaskResultsSection.tsx:45-49 | No result is of unknown status exactly when every status is one of the three known values. |
| `TaskResults.TallySum` | src/components/ir-tasks/TaskResultsSection.tsx:45-49 | The three tallies sum to at most the number of results, with equality iff every status is one of the three known values. |
| `TaskResults.SummaryJoinsSegments` | src/components/ir-tasks/TaskResultsSection.tsx:56-68 | The conditional separators make the summary exactly the non-zero segments ("N processing", "N completed", "N failed"), in that order, joined by " • ". |
| `TaskResults.MissingDataIsEmptyHistory` | src/components/ir-tasks/TaskResultsSection.tsx:44-75 | Missing data is an empty history: the no-results message and an empty summary. |
| `ResultCard.StatusLabel` | src/components/ir-tasks/ResultCard.tsx:26-61 | 'Processing', 'Completed' and 'Failed' correspond one-to-one to the three known statuses, and 'Unknown' to every other string. |
| `ResultCard.FormatDuration` | src/components/ir-tasks/ResultCard.tsx:21-24 | 'N/A' iff the duration is null or ≤ 0. Otherwise the positive duration is shown. |
| `ResultCard.FormatConfidence` | src/components/ir-tasks/ResultCard.tsx:105-107 | A score is shown iff the status is COMPLETED and the score is non-null, and the shown value is that score. |
| `ResultCard.IdBadge` | src/components/ir-tasks/ResultCard.tsx:79 | The result's badge is the first 8 characters of its UUID followed by "...", or the whole UUID followed by "..." when it is shorter. |
| `ResultCard.FailurePanelOnlyFromReason` | src/components/ir-tasks/ResultCard.tsx:124 | The error panel depends on `failure_reason` alone. A null or empty reason hides it, and any other reason shows it whatever the status. |
| `ResultCard.ProcessedImageNeedsBoth` | src/components/ir-tasks/ResultCard.tsx:138 | The 'View Processed Image' action needs both a non-empty image URL and status COMPLETED. Lacking either hides it, and having both shows it whatever the failure reason. |
| `ResultCard.ReduceSharesCounts` | src/components/ir-tasks/ResultCard.tsx:184-187 | The `reduce` from an accumulator adds the number of share values across all shares to it. |
| `ResultCard.ShareValueCountConcat` | src/components/ir-tasks/ResultCard.tsx:184-187 | The shares figure is additive over a split of the share list. |
| `ResultCard.DetectionSection` | src/components/ir-tasks/ResultCard.tsx:150-187 | The section appears iff the status is COMPLETED and a realogram is present. It then shows the gap count, the item count and the number of share values. |
| `ResultCard.FixtureRenderings` | src/components/ir-tasks/ResultCard.test.tsx:6-170 | On the test fixtures: the in-progress result shows 'Processing', '123e4567...' and two N/As. The failed result with score 0.0 shows no confidence and does show its failure panel. The completed result shows counts 2/2/2 and the view action. A zero duration shows N/A. |
| `CatalogItemCard.StatusBadgeVariant` | src/components/CatalogItemCard.tsx:16-25 | The variant is 'default' iff ONBOARDED, 'destructive' iff INCOMPLETE, and 'outline' for every other status. |
| `CatalogItemCard.BadgeTextOfKnownStatuses` | src/components/CatalogItemCard.tsx:52 | The badge text of INCOMPLETE and ONBOARDED is the status itself. |
| `CatalogItemCard.BadgeTextReplacesOnlyFirst` | src/components/CatalogItemCard.tsx:52 | Only the first '_' becomes a space. |
| `CatalogItemCard.Description` | src/components/CatalogItemCard.tsx:59-61 | Empty strings count as absent. The line is "brand - size" when both are given, else whichever one is given. Otherwise it is "Barcode: " followed by the barcode, or by "N/A" when the barcode is absent. |
| `CatalogItemCard.UpdatedRow` | src/components/CatalogItemCard.tsx:101 | A never-edited item (update stamp equal to creation stamp) has no 'Updated' row, and any item whose stamps differ has one. Whether the row shows depends on the two raw timestamps only. |
| `CatalogItemCard.UuidBadgeSharedIff` | src/components/CatalogItemCard.tsx:92 | For UUIDs of at least 8 characters, two items show the same badge iff their UUIDs agree on the first 8 characters. |
| `CatalogItemCard.HighlightMatchesBadge` | src/components/CatalogItemCard.tsx:42-52 | The incomplete highlight and banner appear exactly when the badge is destructive, i.e. for INCOMPLETE. |
| `CatalogRoute.IncompleteCount` | src/routes/catalog.tsx:47-49 | The incomplete tally never exceeds the number of items. |
| `CatalogRoute.IncompleteCountPositive` | src/routes/catalog.tsx:47-63 | The tally, and so the alert, is positive iff some item is INCOMPLETE. |
| `CatalogRoute.AlertText` | src/routes/catalog.tsx:67-68 | The text is "1 item is incomplete" for one item, and "N items are incomplete" otherwise, with N as a canonical numeral (no leading zero). |
| `Decimal.CanonicalIsNatToString` | src/routes/catalog.tsx:67 | A numeral with no leading zero is exactly how its value prints, so the digits in the two labels above are exactly `${N}`. |
| `CatalogRoute.MissingDataIsEmptyCatalog` | src/routes/catalog.tsx:46-80 | Missing data gives no items, a total of 0, the empty state and no alert. |
| `Text.ReplaceFirst` | src/components/CatalogItemCard.tsx:52 | `replace` with a one-character pattern keeps the length and changes exactly the first occurrence. |
| `Text.ShortId` | src/components/CatalogItemCard.tsx:92 | The badge is the first 8 characters, or the whole id when it is shorter, followed by "...". |

## Left out

- `fetch`, `response.json()` and the environment's API key are not modelled as such. An exchange is an `Outcome` value and the key is a parameter. JSON parsing itself is not modelled.
- Request headers are modelled only when given as a plain object. The `Headers`-instance and array forms of `options.headers` are not, and header names are compared case-sensitively, as object keys are.
- Paging-library behaviour is not modelled: caching, `staleTime`, `hasNextPage`/`fetchNextPage`, deduplication of in-flight fetches, refetch, and the loading and error flags. It is library code; only `getNextPageParam` and the derivations are the repository's.
- There is no schema validation, no "Validation Error" kind and no `ImageResult` status-variant validation, because src/lib/api.ts does not contain them.
- Image submission, task-result fetching and result polling (`useSubmitImages`, `useTaskResults`) are not in src/hooks/useApi.ts. `SubmitSettled` and `HandleSubmit` therefore take the upload's outcome as a parameter.
- src/routes/catalog.tsx reads `data` from `useCatalogItems`, which returns `items`/`total`. The page is modelled over an optional `{items, total}` result; the two files are not composed.
- Number formatting is not modelled: `toFixed` for seconds and percentages, and `Date`/`toLocaleString`. `ResultCard.FormatDuration` and `ResultCard.FormatConfidence` return the unscaled value before `toFixed`: the duration in milliseconds, and the score in [0, 1].
- `Decimal.IntToString` prints every digit. JavaScript prints numbers of magnitude 10^21 or more in exponent form (`${1e21}` is "1e+21"), and that form is not modelled.
- JavaScript numbers are modelled as unbounded integers (offsets, limits, statuses, counts) or reals (durations, scores, dimensions). NaN, infinities and fractional offsets are not modelled.
- Rendering is not modelled: JSX, CSS class strings (including `getStatusColor`), icons, the thumbnail fallback, routing, the header, task cards, loading widgets and test utilities.
- react-dropzone's filtering is not modelled: the accepted image types and the 10 MB limit. `URL.createObjectURL` is not modelled either.
- `ApiError.details` values are kept as strings. The `coco` field of an image result is omitted.
- `Pagination.FetchPage` assumes that a 2xx body which parses is page-shaped: `ParsedBody` carries it as a `Page`. The source only casts it (src/lib/api.ts:41) and the hook returns it unchecked (src/hooks/useApi.ts:25). Two outcomes are therefore not modelled:
  - a 2xx `{}` becomes a "page": `flatMap` yields `[undefined]`, the reported total is `undefined ?? 0`, which is 0, and the cursor ends because `limit < undefined` is false;
  - a 2xx `null` makes `lastPage.total` and `page.items` throw a TypeError.
- `Api.ApiRequest`: an error body's `message` is modelled as a string or missing. A non-string message (a number, say) is not modelled; `new Error(...)` would print it as text.
- `Api.FetchArguments`: `RequestInit` carries only method, body and headers. The source forwards every option (`signal`, `credentials`, `cache` and the rest) unchanged; the model states that only for the three it carries.
- `Text.ShortId` counts Unicode scalar values, while JavaScript's `slice` counts UTF-16 code units. The two agree on ASCII UUIDs. An id with characters outside the Basic Multilingual Plane can be cut differently.
- `ShareValue` is modelled in its loose shape (a `group_by` string with optional product and tag ids), because the views read only `values.length`.

=== FILE: api.dfy ===
/**
 * The request helper (src/lib/api.ts): how one HTTP exchange becomes an
 * envelope, which headers go out, and the list endpoints' URLs.
 *
 * The network call and `response.json()` are not modelled: an `Outcome`
 * records what they produced.
 */
module Api {

  import opened Wrappers
  import opened ApiTypes
  import Decimal

  /** A value thrown by `fetch`: an `Error` instance (with its message) or anything else. */
  datatype Thrown = ErrorInstance(message: string) | OtherValue

  /**
   * The response body as `response.json()` sees it: either it fails (with
   * the message of the `SyntaxError` it throws) or it yields one JSON value,
   * which the code reads as the payload on a 2xx and as an error otherwise;
   * as an error it is `null` (`None`) or a value whose fields are read as an
   * `ApiError`.
   */
  datatype ParsedBody<T> = Unparseable(syntaxError: string) | Parsed(asData: T, asError: Option<ApiError>)

  /** What one `fetch` produced. */
  datatype Outcome<T> =
    | FetchThrew(thrown: Thrown)
    | Responded(status: int, statusText: string, body: ParsedBody<T>)

  /** `response.ok`. */
  predicate IsOk(status: int) {
    200 <= status <= 299
  }

  const NetworkErrorKind: string := "Network Error"
  const UnknownErrorKind: string := "Unknown Error"
  const UnknownNetworkMessage: string := "Unknown network error"

  /** The error built in the catch-all branch. */
  function NetworkError(t: Thrown): ApiError {
    var message := match t
      case ErrorInstance(m) => m
      case OtherValue => UnknownNetworkMessage;
    ApiError(Some(NetworkErrorKind), Some(message), Some(0), None)
  }

  /** The error synthesised when a non-2xx body cannot be parsed. */
  function HttpStatusError(status: int, statusText: string): ApiError {
    ApiError(Some(UnknownErrorKind), Some("HTTP " + Decimal.IntToString(status) + ": " + statusText), Some(status), None)
  }

  /** A non-2xx body passed on as the envelope's error, `null` included. */
  function PassedOn(e: Option<ApiError>): ErrorMember {
    match e
    case None => NullError
    case Some(v) => ErrorValue(v)
  }

  function FailedWith<T>(e: ErrorMember): Envelope<T> {
    Envelope(None, false, e)
  }

  /** `apiRequest`: the envelope an exchange yields. */
  function ApiRequest<T>(o: Outcome<T>): (r: Envelope<T>)
    // the envelope is consistent: success exactly when an error is absent and data present
    ensures r.success <==> r.error.NoError?
    ensures r.success <==> r.data.Some?
    // success exactly for a 2xx whose body parses, and the data is that body
    ensures r.success <==> o.Responded? && IsOk(o.status) && o.body.Parsed?
    ensures r.success ==> r.data.value == o.body.asData
    // a thrown fetch is a network error with status code 0
    ensures o.FetchThrew? ==>
      && r.error.ErrorValue?
      && r.error.value.error == Some(NetworkErrorKind)
      && r.error.value.statusCode == Some(0)
      && r.error.value.message == Some(if o.thrown.ErrorInstance? then o.thrown.message else UnknownNetworkMessage)
    // a 2xx whose body does not parse lands in the same catch
    ensures o.Responded? && IsOk(o.status) && o.body.Unparseable? ==>
      r.error == ErrorValue(ApiError(Some(NetworkErrorKind), Some(o.body.syntaxError), Some(0), None))
    // a non-2xx passes a parsed body through unchanged, a `null` body included ...
    ensures o.Responded? && !IsOk(o.status) && o.body.Parsed? ==>
      && (o.body.asError.None? ==> r.error == NullError)
      && (o.body.asError.Some? ==> r.error == ErrorValue(o.body.asError.value))
    // ... and otherwise synthesises an error carrying the HTTP status
    ensures o.Responded? && !IsOk(o.status) && o.body.Unparseable? ==>
      && r.error.ErrorValue?
      && r.error.value.error == Some(UnknownErrorKind)
      && r.error.value.statusCode == Some(o.status)
  {
    match o
    case FetchThrew(t) => FailedWith(ErrorValue(NetworkError(t)))
    case Responded(status, statusText, body) =>
      if !IsOk(status) then
        match body
        case Unparseable(_) => FailedWith(ErrorValue(HttpStatusError(status, statusText)))
        case Parsed(_, e) => FailedWith(PassedOn(e))
      else
        match body
        case Unparseable(m) => FailedWith(ErrorValue(NetworkError(ErrorInstance(m))))
        case Parsed(d, _) => Envelope(Some(d), true, NoError)
  }

  /**
   * The synthesised message is `HTTP <status>: <statusText>`, with the status
   * printed as `${status}` prints it (no leading zeros), and the status can be
   * read back from it.
   */
  lemma SynthesizedMessageNamesStatus<T>(status: int, statusText: string, syntaxError: string)
    requires !IsOk(status)
    ensures var e := ApiRequest<T>(Responded(status, statusText, Unparseable(syntaxError))).error.value;
      exists digits: string ::
        && e.message == Some("HTTP " + digits + ": " + statusText)
        && Decimal.ParseInt(digits) == Some(status)
        && (status >= 0 ==> Decimal.Canonical(digits))
        && (status < 0 ==> |digits| >= 2 && digits[0] == '-' && Decimal.Canonical(digits[1..]))
  {
    Decimal.ParseIntRoundTrip(status);
    var digits := Decimal.IntToString(status);
    assert ApiRequest<T>(Responded(status, statusText, Unparseable(syntaxError))).error.value.message
      == Some("HTTP " + digits + ": " + statusText);
  }

  // ---------------------------------------------------------------- headers

  const ApiKeyHeader: string := "X-API-Key"
  const ContentTypeHeader: string := "Content-Type"
  const JsonContentType: string := "application/json"

  /** The parts of `RequestInit` the helper touches; `headers` as a plain object. */
  datatype RequestInit = RequestInit(httpMethod: Option<string>, body: Option<string>, headers: map<string, string>)

  /**
   * `{ 'X-API-Key': key, 'Content-Type': 'application/json', ...options.headers }`:
   * caller entries override the defaults entry by entry.
   */
  function EffectiveHeaders(apiKey: string, callerHeaders: map<string, string>): (h: map<string, string>)
    ensures h.Keys == {ApiKeyHeader, ContentTypeHeader} + callerHeaders.Keys
    ensures forall k :: k in callerHeaders ==> h[k] == callerHeaders[k]
    ensures ApiKeyHeader !in callerHeaders ==> h[ApiKeyHeader] == apiKey
    ensures ContentTypeHeader !in callerHeaders ==> h[ContentTypeHeader] == JsonContentType
  {
    map[ApiKeyHeader := apiKey, ContentTypeHeader := JsonContentType] + callerHeaders
  }

  /** The `(url, init)` pair handed to `fetch`. */
  datatype FetchCall = FetchCall(url: string, init: RequestInit)

  /**
   * The endpoint is the URL verbatim; the options are forwarded with only
   * their headers replaced by the merged set.
   */
  function FetchArguments(endpoint: string, options: RequestInit, apiKey: string): (c: FetchCall)
    ensures c.url == endpoint
    ensures c.init.httpMethod == options.httpMethod && c.init.body == options.body
    ensures c.init.headers == EffectiveHeaders(apiKey, options.headers)
  {
    FetchCall(endpoint, options.(headers := EffectiveHeaders(apiKey, options.headers)))
  }

  // -------------------------------------------------------------- endpoints

  const DefaultOffset: int := 0
  const DefaultLimit: int := 50

  const CatalogItemsPath: string := "/v2/catalog-items"
  const IRTasksPath: string := "/v2/image-recognition/tasks"

  function ListEndpoint(path: string, offset: int, limit: int): string {
    path + "?offset=" + Decimal.IntToString(offset) + "&limit=" + Decimal.IntToString(limit)
  }

  /** `getCatalogItems(offset = 0, limit = 50)`; `None` is an omitted argument. */
  function CatalogItemsEndpoint(offset: Option<int>, limit: Option<int>): string {
    ListEndpoint(CatalogItemsPath, offset.GetOr(DefaultOffset), limit.GetOr(DefaultLimit))
  }

  /** `getIRTasks(offset = 0, limit = 50)`. */
  function IRTasksEndpoint(offset: Option<int>, limit: Option<int>): string {
    ListEndpoint(IRTasksPath, offset.GetOr(DefaultOffset), limit.GetOr(DefaultLimit))
  }

  /** The default arguments are offset 0 and limit 50. */
  lemma EndpointDefaults()
    ensures CatalogItemsEndpoint(None, None) == "/v2/catalog-items?offset=0&limit=50"
    ensures IRTasksEndpoint(None, None) == "/v2/image-recognition/tasks?offset=0&limit=50"
  {
  }

  /** Splitting `a + sep + b` at the first character of `sep`, when `a` lacks it. */
  lemma {:induction false} SplitAtSeparator(a: string, b: string, c: string, d: string, sep: string)
    requires |sep| >= 1 && sep[0] !in a && sep[0] !in c
    requires a + sep + b == c + sep + d
    ensures a == c && b == d
  {
    var x := a + sep + b;
    // the first occurrence of sep[0] in x is both at |a| and at |c|
    assert forall i :: 0 <= i < |a| ==> x[i] == a[i];
    assert forall i :: 0 <= i < |c| ==> x[i] == c[i];
    assert x[|a|] == sep[0] && x[|c|] == sep[0];
    assert a == x[..|a|];
    assert c == (c + sep + d)[..|c|];
    assert b == x[|a| + |sep|..];
    assert d == (c + sep + d)[|c| + |sep|..];
  }

  lemma IntToStringHasNoAmpersand(i: int)
    ensures '&' !in Decimal.IntToString(i)
  {
  }

  /** Distinct (offset, limit) pairs never request the same URL of a collection. */
  lemma ListEndpointInjective(path: string, o1: int, l1: int, o2: int, l2: int)
    requires ListEndpoint(path, o1, l1) == ListEndpoint(path, o2, l2)
    ensures o1 == o2 && l1 == l2
  {
    var prefix := path + "?offset=";
    var s1, s2 := Decimal.IntToString(o1), Decimal.IntToString(o2);
    var t1, t2 := Decimal.IntToString(l1), Decimal.IntToString(l2);
    assert ListEndpoint(path, o1, l1) == prefix + (s1 + "&limit=" + t1);
    assert ListEndpoint(path, o2, l2) == prefix + (s2 + "&limit=" + t2);
    assert s1 + "&limit=" + t1 == s2 + "&limit=" + t2 by {
      var u1, u2 := s1 + "&limit=" + t1, s2 + "&limit=" + t2;
      assert u1 == (prefix + u1)[|prefix|..];
      assert u2 == (prefix + u2)[|prefix|..];
    }
    IntToStringHasNoAmpersand(o1);
    IntToStringHasNoAmpersand(o2);
    SplitAtSeparator(s1, t1, s2, t2, "&limit=");
    Decimal.IntToStringInjective(o1, o2);
    Decimal.IntToStringInjective(l1, l2);
  }

  /** A catalog URL is never a task URL. */
  lemma CatalogAndTaskEndpointsDiffer(o1: Option<int>, l1: Option<int>, o2: Option<int>, l2: Option<int>)
    ensures CatalogItemsEndpoint(o1, l1) != IRTasksEndpoint(o2, l2)
  {
    assert CatalogItemsEndpoint(o1, l1)[4] == 'c';
    assert IRTasksEndpoint(o2, l2)[4] == 'i';
  }
}

=== FILE: api_types.dfy ===
/**
 * The records exchanged with the remote API (src/types/api.ts): catalog
 * items, pages, the error object and the response envelope, plus the
 * image-recognition task and the per-image result with its post-processing
 * output, with the fields the views read.
 */
module ApiTypes {

  import opened Wrappers

  /** A catalog status as received; the declared union is `INCOMPLETE | ONBOARDED`. */
  type CatalogItemStatus = string

  const Incomplete: CatalogItemStatus := "INCOMPLETE"
  const Onboarded: CatalogItemStatus := "ONBOARDED"

  datatype PropValue = PropString(s: string) | PropNumber(n: real) | PropBool(b: bool) | PropNull

  datatype CustomProp = CustomProp(key: string, value: PropValue)

  datatype CatalogItem = CatalogItem(
    uuid: string,
    status: CatalogItemStatus,
    thumbnailUrl: string,
    name: string,
    barcode: Option<string>,
    customId: Option<string>,
    height: Option<real>,
    width: Option<real>,
    depth: Option<real>,
    brand: Option<string>,
    size: Option<string>,
    containerType: Option<string>,
    flavour: Option<string>,
    packagingSize: Option<string>,
    customProps: seq<CustomProp>,
    createdAt: string,
    updatedAt: string
  )

  /** One page of a server-side collection, as every list endpoint returns it. */
  datatype Page<T> = Page(items: seq<T>, total: int, limit: int, offset: int)

  /**
   * The error object of a failed call; `details` values are kept as text.
   * The request helper fills every field of the errors it builds itself, but
   * an error body a server sends is passed on as it is, so any field may be
   * missing (`None`). A non-null JSON value that is not an object reads with
   * every field missing.
   */
  datatype ApiError = ApiError(
    error: Option<string>,
    message: Option<string>,
    statusCode: Option<int>,
    details: Option<map<string, string>>
  )

  /**
   * The envelope's `error` member: absent on success; on failure either a
   * JSON `null` passed on from the server or a value read as an `ApiError`.
   */
  datatype ErrorMember = NoError | NullError | ErrorValue(value: ApiError)

  /**
   * `{data, success, error?}`. A failed call carries the placeholder `{}`
   * as data, which is `None` here.
   */
  datatype Envelope<T> = Envelope(data: Option<T>, success: bool, error: ErrorMember)

  /** An image-recognition task with its two feature flags. */
  datatype IRTask = IRTask(
    uuid: string,
    name: string,
    createdAt: string,
    updatedAt: string,
    computeRealogram: bool,
    computeShares: bool
  )

  const InProgress: string := "IN_PROGRESS"
  const Completed: string := "COMPLETED"
  const Failed: string := "FAILED"

  /** The three image-result statuses the views recognise. */
  predicate KnownStatus(status: string) {
    status == InProgress || status == Completed || status == Failed
  }

  datatype Gap = Gap(shelfId: int, slot: int, stackIndex: int, bbox: seq<real>)

  datatype ItemEntry = ItemEntry(annotationId: int, shelfId: int, slot: int, stackIndex: int)

  datatype Realogram = Realogram(gaps: seq<Gap>, itemEntries: seq<ItemEntry>)

  /** One row of a share table, grouped by product or by tag. */
  datatype ShareValue = ShareValue(
    groupBy: string,
    productUuid: Option<string>,
    tagUuid: Option<string>,
    count: int,
    countRatio: real,
    area: real,
    areaRatio: real
  )

  datatype Share = Share(imageId: int, values: seq<ShareValue>)

  datatype PostprocessingResults = PostprocessingResults(realogram: Option<Realogram>, shares: seq<Share>)

  /**
   * The processing record of one uploaded image. `status` is any string:
   * the views fall back to a neutral rendering for unknown values.
   * `duration` is in milliseconds.
   */
  datatype ImageResult = ImageResult(
    uuid: string,
    taskUuid: string,
    imageUrl: string,
    status: string,
    failureReason: Option<string>,
    duration: Option<real>,
    createdAt: string,
    updatedAt: string,
    postprocessingResults: Option<PostprocessingResults>,
    confidenceScore: Option<real>
  )
}

=== FILE: catalog_item_card.dfy ===
/**
 * What the card of one catalog item shows (src/components/CatalogItemCard.tsx):
 * the badge variant and text, the description line, the incomplete
 * highlight, the updated row and the abbreviated UUID.
 */
module CatalogItemCard {

  import opened Wrappers
  import opened ApiTypes
  import Text

  datatype BadgeVariant = Default | Destructive | Outline

  /** `getStatusBadgeVariant`. */
  function StatusBadgeVariant(status: CatalogItemStatus): (v: BadgeVariant)
    ensures v == Default <==> status == Onboarded
    ensures v == Destructive <==> status == Incomplete
    ensures v == Outline <==> status != Onboarded && status != Incomplete
  {
    if status == Onboarded then Default
    else if status == Incomplete then Destructive
    else Outline
  }

  /** `status.replace('_', ' ')`. */
  function BadgeText(status: CatalogItemStatus): string {
    Text.ReplaceFirst(status, '_', ' ')
  }

  /**
   * Only the first underscore becomes a space, so the two declared statuses,
   * which have none, are shown as they are.
   */
  lemma BadgeTextOfKnownStatuses()
    ensures BadgeText(Incomplete) == Incomplete
    ensures BadgeText(Onboarded) == Onboarded
  {
    NoUnderscoreInKnownStatuses();
    BadgeTextWithoutUnderscore(Incomplete);
    BadgeTextWithoutUnderscore(Onboarded);
  }

  lemma NoUnderscoreInKnownStatuses()
    ensures '_' !in Incomplete && '_' !in Onboarded
  {
  }

  lemma BadgeTextWithoutUnderscore(status: CatalogItemStatus)
    requires '_' !in status
    ensures BadgeText(status) == status
  {
    Text.ReplaceFirstAbsent(status, '_', ' ');
  }

  /** A status with two underscores keeps the second. */
  lemma BadgeTextReplacesOnlyFirst()
    ensures BadgeText("A_B_C") == "A B_C"
  {
  }

  /** `a || b` for a nullable string `a`. */
  function OrElse(a: Option<string>, b: string): (r: string)
    ensures Text.Truthy(a) ==> r == a.value
    ensures !Text.Truthy(a) ==> r == b
  {
    if Text.Truthy(a) then a.value else b
  }

  /**
   * The description line: "brand - size" when both are given, else
   * whichever one is, else the barcode (or 'N/A') after "Barcode: ".
   */
  function Description(item: CatalogItem): (r: string)
    ensures Text.Truthy(item.brand) && Text.Truthy(item.size) ==> r == item.brand.value + " - " + item.size.value
    ensures Text.Truthy(item.brand) && !Text.Truthy(item.size) ==> r == item.brand.value
    ensures !Text.Truthy(item.brand) && Text.Truthy(item.size) ==> r == item.size.value
    ensures !Text.Truthy(item.brand) && !Text.Truthy(item.size) && Text.Truthy(item.barcode) ==> r == "Barcode: " + item.barcode.value
    ensures !Text.Truthy(item.brand) && !Text.Truthy(item.size) && !Text.Truthy(item.barcode) ==> r == "Barcode: N/A"
  {
    if Text.Truthy(item.brand) && Text.Truthy(item.size) then item.brand.value + " - " + item.size.value
    else OrElse(item.brand, OrElse(item.size, "Barcode: " + OrElse(item.barcode, "N/A")))
  }

  /** The red ring and the 'Incomplete Item' banner. */
  predicate HighlightsIncomplete(item: CatalogItem) {
    item.status == Incomplete
  }

  /** The 'Updated' row. */
  predicate ShowsUpdated(item: CatalogItem) {
    item.updatedAt != item.createdAt
  }

  /**
   * A never-edited item (update stamp equal to the creation stamp) has no
   * 'Updated' row, and whether the row shows depends on the two raw
   * timestamps alone, not on the dates they print as or on other fields.
   */
  lemma UpdatedRow(item: CatalogItem, other: CatalogItem)
    ensures !ShowsUpdated(item.(updatedAt := item.createdAt))
    ensures other.createdAt == item.createdAt && other.updatedAt == item.updatedAt ==>
      ShowsUpdated(other) == ShowsUpdated(item)
    ensures item.updatedAt != item.createdAt ==> ShowsUpdated(item)
  {
  }

  /** The abbreviated UUID. */
  function UuidBadge(item: CatalogItem): string {
    Text.ShortId(item.uuid)
  }

  /**
   * The badge shows only the first 8 characters: two items with full-length
   * UUIDs share a badge exactly when their UUIDs share those 8 characters.
   */
  lemma UuidBadgeSharedIff(a: CatalogItem, b: CatalogItem)
    requires |a.uuid| >= 8 && |b.uuid| >= 8
    ensures UuidBadge(a) == UuidBadge(b) <==> a.uuid[..8] == b.uuid[..8]
  {
    if UuidBadge(a) == UuidBadge(b) {
      assert a.uuid[..8] == UuidBadge(a)[..8];
    }
  }

  /** The highlight and the destructive badge always go together. */
  lemma HighlightMatchesBadge(item: CatalogItem)
    ensures HighlightsIncomplete(item) <==> StatusBadgeVariant(item.status) == Destructive
  {
  }
}

=== FILE: catalog_route.dfy ===
/**
 * The catalog page (src/routes/catalog.tsx): the items and total it reads
 * from an optional `{items, total}` result, the incomplete tally and its
 * alert, and the empty state.
 */
module CatalogRoute {

  import opened Wrappers
  import opened ApiTypes
  import Decimal

  /** The `{items, total}` result the page reads. */
  datatype CatalogData = CatalogData(items: seq<CatalogItem>, total: int)

  /** `data?.items || []`. */
  function CatalogItems(data: Option<CatalogData>): seq<CatalogItem> {
    if data.Some? then data.value.items else []
  }

  /** `data?.total || 0`. */
  function TotalCount(data: Option<CatalogData>): int {
    if data.Some? && data.value.total != 0 then data.value.total else 0
  }

  /** The number of items whose status is INCOMPLETE. */
  function IncompleteCount(items: seq<CatalogItem>): (n: nat)
    ensures n <= |items|
  {
    if items == [] then 0
    else (if items[0].status == Incomplete then 1 else 0) + IncompleteCount(items[1..])
  }

  /** The tally is positive exactly when some item is incomplete. */
  lemma {:induction false} IncompleteCountPositive(items: seq<CatalogItem>)
    ensures IncompleteCount(items) > 0 <==> exists i :: 0 <= i < |items| && items[i].status == Incomplete
  {
    if items != [] {
      IncompleteCountPositive(items[1..]);
      if exists i :: 0 <= i < |items[1..]| && items[1..][i].status == Incomplete {
        var i :| 0 <= i < |items[1..]| && items[1..][i].status == Incomplete;
        assert items[i + 1].status == Incomplete;
      }
      if exists i :: 0 <= i < |items| && items[i].status == Incomplete {
        var i :| 0 <= i < |items| && items[i].status == Incomplete;
        if i > 0 {
          assert items[1..][i - 1].status == Incomplete;
        }
      }
    }
  }

  /** The alert is shown while some item is incomplete. */
  predicate ShowsIncompleteAlert(items: seq<CatalogItem>) {
    IncompleteCount(items) > 0
  }

  /** "1 item is incomplete", otherwise "N items are incomplete". */
  function AlertText(n: nat): (r: string)
    ensures n == 1 ==> r == "1 item is incomplete"
    ensures n != 1 ==> exists digits: string ::
      && Decimal.Canonical(digits)
      && Decimal.Value(digits) == n
      && r == digits + " items are incomplete"
  {
    Decimal.ValueOfNatToString(n);
    Decimal.NatToString(n) + " item" + (if n == 1 then "" else "s") + " " + (if n == 1 then "is" else "are") + " incomplete"
  }

  /** The empty-catalog state. */
  predicate ShowsEmptyState(items: seq<CatalogItem>) {
    |items| == 0
  }

  /** Without data the page shows no items, a total of 0, the empty state and no alert. */
  lemma MissingDataIsEmptyCatalog()
    ensures CatalogItems(None) == [] && TotalCount(None) == 0
    ensures ShowsEmptyState(CatalogItems(None)) && !ShowsIncompleteAlert(CatalogItems(None))
  {
  }
}

=== FILE: decimal.dfy ===
/**
 * Decimal rendering of integers, as JavaScript's template literals print
 * integral numbers (`${n}`) of magnitude below 10^21 (larger ones print in
 * exponent form, which is not modelled), together with its inverse.
 */
module Decimal {

  import opened Wrappers

  predicate IsDigit(c: char) {
    '0' <= c <= '9'
  }

  predicate AllDigits(s: string) {
    forall i :: 0 <= i < |s| ==> IsDigit(s[i])
  }

  function DigitValue(c: char): (d: nat)
    requires IsDigit(c)
    ensures d < 10
  {
    c as int - '0' as int
  }

  function DigitChar(d: nat): (c: char)
    requires d < 10
    ensures IsDigit(c) && DigitValue(c) == d
  {
    ('0' as int + d) as char
  }

  /** A numeral as `${n}` prints one: at least one digit and no leading zero. */
  predicate Canonical(s: string) {
    |s| >= 1 && AllDigits(s) && (|s| == 1 || s[0] != '0')
  }

  /** The shortest decimal numeral of `n` (no sign, no leading zero). */
  function NatToString(n: nat): (s: string)
    ensures Canonical(s)
    ensures s[0] == '0' ==> n == 0
    decreases n
  {
    if n < 10 then [DigitChar(n)] else NatToString(n / 10) + [DigitChar(n % 10)]
  }

  /** The number a string of digits denotes. */
  function Value(s: string): nat
    requires AllDigits(s)
  {
    if s == [] then 0 else Value(s[..|s| - 1]) * 10 + DigitValue(s[|s| - 1])
  }

  /** Reading back a rendered numeral yields the number. */
  lemma {:induction false} ValueOfNatToString(n: nat)
    ensures Value(NatToString(n)) == n
    decreases n
  {
    if n >= 10 {
      var s := NatToString(n / 10);
      var t := s + [DigitChar(n % 10)];
      assert t[..|t| - 1] == s;
      ValueOfNatToString(n / 10);
    }
  }

  /** Splitting off the last decimal digit. */
  lemma LastDigit(q: nat, d: nat)
    requires d < 10
    ensures (q * 10 + d) / 10 == q && (q * 10 + d) % 10 == d
  {
  }

  /** Every canonical numeral is the rendering of the number it denotes. */
  lemma {:induction false} CanonicalIsNatToString(s: string)
    requires Canonical(s)
    ensures s == NatToString(Value(s))
    decreases |s|
  {
    var last := s[|s| - 1];
    assert DigitChar(DigitValue(last)) == last;
    if |s| > 1 {
      var p := s[..|s| - 1];
      assert p[0] == s[0];
      CanonicalIsNatToString(p);
      var q := Value(p);
      assert NatToString(0) == "0";
      assert q != 0;
      assert Value(s) == q * 10 + DigitValue(last);
      LastDigit(q, DigitValue(last));
      assert NatToString(Value(s)) == NatToString(q) + [DigitChar(DigitValue(last))];
      assert s == p + [last];
    }
  }

  /** `${i}` for an integral number: a minus sign before negative values. */
  function IntToString(i: int): (s: string)
    ensures |s| >= 1
    ensures forall k :: 0 <= k < |s| ==> s[k] == '-' || IsDigit(s[k])
  {
    if i < 0 then "-" + NatToString(-i) else NatToString(i)
  }

  /** The inverse of `IntToString`: a numeral with an optional leading minus. */
  function ParseInt(s: string): (r: Option<int>)
  {
    if |s| >= 2 && s[0] == '-' && AllDigits(s[1..]) then var v: int := Value(s[1..]); Some(-v)
    else if |s| >= 1 && AllDigits(s) then Some(Value(s))
    else None
  }

  lemma ParseIntRoundTrip(i: int)
    ensures ParseInt(IntToString(i)) == Some(i)
  {
    if i < 0 {
      var d := NatToString(-i);
      assert ("-" + d)[1..] == d;
      ValueOfNatToString(-i);
    } else {
      ValueOfNatToString(i);
    }
  }

  /** Distinct integers render as distinct strings. */
  lemma IntToStringInjective(a: int, b: int)
    ensures IntToString(a) == IntToString(b) ==> a == b
  {
    ParseIntRoundTrip(a);
    ParseIntRoundTrip(b);
  }
}

=== FILE: image_upload.dfy ===
/**
 * The selection list of the image upload view
 * (src/components/ir-tasks/ImageUploadInterface.tsx): dropping files,
 * removing one, submitting, and the labels derived from it. The selection
 * is a sequence of files, generic in what a file is.
 */
module ImageUpload {

  import opened Wrappers
  import opened ApiTypes
  import Decimal

  /** `onDrop`: the accepted files go after the current selection. */
  function OnDrop<F>(selection: seq<F>, accepted: seq<F>): (r: seq<F>)
    ensures |r| == |selection| + |accepted|
    ensures r[..|selection|] == selection && r[|selection|..] == accepted
  {
    selection + accepted
  }

  /** `s.filter((_, i) => i !== index)` over the suffix of a list that starts at position `from`. */
  function KeepOtherPositions<F>(s: seq<F>, index: int, from: int): seq<F>
    decreases |s|
  {
    if s == [] then []
    else (if from == index then [] else [s[0]]) + KeepOtherPositions(s[1..], index, from + 1)
  }

  /** `removeFile(index)`. */
  function RemoveFile<F>(selection: seq<F>, index: int): seq<F> {
    KeepOtherPositions(selection, index, 0)
  }

  lemma {:induction false} KeepOtherPositionsSlices<F>(s: seq<F>, index: int, from: int)
    ensures KeepOtherPositions(s, index, from)
      == if from <= index < from + |s| then s[..index - from] + s[index - from + 1..] else s
    decreases |s|
  {
    if s != [] {
      KeepOtherPositionsSlices(s[1..], index, from + 1);
      if from == index {
        assert s[..0] + s[1..] == s[1..];
      } else if from < index < from + |s| {
        var k := index - from;
        assert [s[0]] + (s[1..][..k - 1] + s[1..][k..]) == s[..k] + s[k + 1..];
      } else {
        assert [s[0]] + s[1..] == s;
      }
    }
  }

  /**
   * Removing position `index` drops exactly that file and keeps the rest in
   * order; a position outside the list changes nothing.
   */
  lemma RemoveFileSpec<F>(selection: seq<F>, index: int)
    ensures 0 <= index < |selection| ==>
      RemoveFile(selection, index) == selection[..index] + selection[index + 1..]
    ensures !(0 <= index < |selection|) ==> RemoveFile(selection, index) == selection
  {
    KeepOtherPositionsSlices(selection, index, 0);
  }

  /** Removing a just-dropped file restores the earlier selection. */
  lemma DropThenRemoveRestores<F>(selection: seq<F>, file: F)
    ensures RemoveFile(OnDrop(selection, [file]), |selection|) == selection
  {
    var s := OnDrop(selection, [file]);
    RemoveFileSpec(s, |selection|);
    assert s[..|selection|] == selection;
  }

  /** How the upload mutation settled. */
  datatype MutationOutcome = Resolved | Rejected(reason: string)

  /** The images posted for a task. */
  datatype SubmitRequest<F> = SubmitRequest(taskUuid: string, images: seq<F>)

  /** The selection after `handleSubmit`, and the request it issued if any. */
  datatype SubmitStep<F> = SubmitStep(selection: seq<F>, request: Option<SubmitRequest<F>>)

  /**
   * The first half of `handleSubmit`, at the click: an empty selection issues
   * nothing; otherwise the selection of that moment is posted for the task.
   */
  function SubmitStart<F>(task: IRTask, selection: seq<F>): (r: Option<SubmitRequest<F>>)
    ensures r.None? <==> |selection| == 0
    ensures r.Some? ==> r.value.taskUuid == task.uuid && r.value.images == selection
  {
    if |selection| == 0 then None else Some(SubmitRequest(task.uuid, selection))
  }

  /**
   * The second half, once the upload settles. It acts on the selection
   * current at that moment, which drops and removals made while the upload
   * was pending may have changed: success empties it, failure leaves it.
   */
  function SubmitSettled<F>(current: seq<F>, outcome: MutationOutcome): (r: seq<F>)
    ensures outcome.Resolved? ==> |r| == 0
    ensures outcome.Rejected? ==> r == current
  {
    match outcome
    case Resolved => []
    case Rejected(_) => current
  }

  /**
   * `handleSubmit` when nothing is dropped or removed while the upload is
   * pending: the whole selection is posted, and it is cleared only when the
   * upload succeeds.
   */
  function HandleSubmit<F>(task: IRTask, selection: seq<F>, outcome: MutationOutcome): (r: SubmitStep<F>)
    ensures |selection| == 0 ==> r.request.None? && r.selection == selection
    ensures |selection| > 0 ==> r.request == Some(SubmitRequest(task.uuid, selection))
    ensures |selection| > 0 && outcome.Resolved? ==> r.selection == []
    ensures outcome.Rejected? ==> r.selection == selection
  {
    var request := SubmitStart(task, selection);
    if request.None? then SubmitStep(selection, None)
    else SubmitStep(SubmitSettled(selection, outcome), request)
  }

  /**
   * The drop zone stays active while an upload is pending. Files dropped in
   * that window are not part of the posted request, and a successful upload
   * clears them together with the posted ones; a failed upload keeps them.
   */
  lemma DropDuringUpload<F>(task: IRTask, selection: seq<F>, dropped: seq<F>, reason: string)
    requires |selection| > 0
    ensures SubmitStart(task, selection).value.images == selection
    ensures SubmitSettled(OnDrop(selection, dropped), Resolved) == []
    ensures SubmitSettled(OnDrop(selection, dropped), Rejected(reason)) == selection + dropped
  {
  }

  /** The selected-images panel and the submit button are shown for a non-empty selection. */
  predicate ShowsSelection<F>(selection: seq<F>) {
    |selection| > 0
  }

  /** A successful submit hides the panel; a dropped file shows it. */
  lemma SelectionPanelLifecycle<F>(task: IRTask, selection: seq<F>, file: F)
    ensures !ShowsSelection(HandleSubmit(task, selection, Resolved).selection)
    ensures ShowsSelection(OnDrop(selection, [file]))
  {
  }

  /** "Submit N Image", with an "s" unless N is 1. */
  function SubmitLabel(n: nat): (r: string)
    ensures exists digits: string ::
      && Decimal.Canonical(digits)
      && Decimal.Value(digits) == n
      && r == "Submit " + digits + " Image" + (if n != 1 then "s" else "")
    ensures r[|r| - 1] == 's' <==> n != 1
  {
    Decimal.ValueOfNatToString(n);
    "Submit " + Decimal.NatToString(n) + " Image" + (if n != 1 then "s" else "")
  }

  /** The label a feature flag renders as. */
  function FlagLabel(enabled: bool): string {
    if enabled then "Enabled" else "Disabled"
  }

  /** The realogram and shares rows of the task details, each from its own flag. */
  function FeatureLabels(task: IRTask): (r: (string, string))
    ensures r.0 == "Enabled" <==> task.computeRealogram
    ensures r.1 == "Enabled" <==> task.computeShares
    ensures r.0 != "Enabled" ==> r.0 == "Disabled"
    ensures r.1 != "Enabled" ==> r.1 == "Disabled"
  {
    (FlagLabel(task.computeRealogram), FlagLabel(task.computeShares))
  }
}

=== FILE: pagination.dfy ===
/**
 * The accumulating paginated query (src/hooks/useApi.ts): how a page fetch
 * becomes a page or an error, the next-offset rule handed to the paging
 * library, and the items and total derived from the loaded pages.
 *
 * The library's own bookkeeping (caching, refetching, deduplication) is not
 * modelled; a loaded query is the sequence of its pages in fetch order.
 */
module Pagination {

  import opened Wrappers
  import opened ApiTypes
  import Api

  // ------------------------------------------------------------ query keys

  /** An element of a query key. */
  datatype KeyPart = KeyString(s: string) | KeyNumber(n: int)

  /** The two paginated collections the application lists. */
  datatype Collection = CatalogItems | IRTasks

  function CollectionKey(c: Collection): seq<KeyPart> {
    match c
    case CatalogItems => [KeyString("catalog-items")]
    case IRTasks => [KeyString("ir-tasks")]
  }

  /** The message a failed fetch throws when the server gave none. */
  function FallbackMessage(c: Collection): string {
    match c
    case CatalogItems => "Failed to fetch catalog items"
    case IRTasks => "Failed to fetch IR tasks"
  }

  const DefaultLimit: int := 50

  /** The page size a hook uses: its argument, 50 when omitted. */
  function EffectiveLimit(limit: Option<int>): int {
    limit.GetOr(DefaultLimit)
  }

  /** `[...queryKey, limit]`. */
  function QueryKey(c: Collection, limit: Option<int>): (k: seq<KeyPart>)
    ensures |k| == |CollectionKey(c)| + 1
    ensures k[..|k| - 1] == CollectionKey(c)
    ensures k[|k| - 1] == KeyNumber(EffectiveLimit(limit))
  {
    CollectionKey(c) + [KeyNumber(EffectiveLimit(limit))]
  }

  /**
   * Two hooks share cached pages exactly when they list the same collection
   * with the same page size: a different limit never reuses pages.
   */
  lemma QueryKeySharedIff(c1: Collection, l1: Option<int>, c2: Collection, l2: Option<int>)
    ensures QueryKey(c1, l1) == QueryKey(c2, l2) <==> c1 == c2 && EffectiveLimit(l1) == EffectiveLimit(l2)
  {
  }

  /** The URL `apiFn(pageParam, limit)` requests the page at `offset` from. */
  function PageEndpoint(c: Collection, offset: int, limit: int): string {
    match c
    case CatalogItems => Api.CatalogItemsEndpoint(Some(offset), Some(limit))
    case IRTasks => Api.IRTasksEndpoint(Some(offset), Some(limit))
  }

  /** Different offsets of one collection are requested from different URLs. */
  lemma PageEndpointInjective(c: Collection, o1: int, o2: int, limit: int)
    ensures PageEndpoint(c, o1, limit) == PageEndpoint(c, o2, limit) ==> o1 == o2
  {
    var path := if c.CatalogItems? then Api.CatalogItemsPath else Api.IRTasksPath;
    if PageEndpoint(c, o1, limit) == PageEndpoint(c, o2, limit) {
      Api.ListEndpointInjective(path, o1, limit, o2, limit);
    }
  }

  // ------------------------------------------------------------- page fetch

  /** `response.error?.message` is a non-empty string, so `||` keeps it. */
  predicate HasMessage(e: ErrorMember) {
    e.ErrorValue? && e.value.message.Some? && e.value.message.value != ""
  }

  /**
   * `queryFn` after the call: a failed envelope throws the server's message,
   * or the fallback when that message is missing or empty; a successful one
   * yields its data as the page.
   */
  function PageOrError<T>(response: Envelope<Page<T>>, fallback: string): (r: Result<Page<T>, string>)
    requires response.success ==> response.data.Some?
    ensures r.Success? <==> response.success
    ensures r.Success? ==> r.value == response.data.value
    ensures r.Failure? && HasMessage(response.error) ==> r.error == response.error.value.message.value
    ensures r.Failure? && !HasMessage(response.error) ==> r.error == fallback
  {
    if !response.success then
      Failure(if HasMessage(response.error) then response.error.value.message.value else fallback)
    else
      Success(response.data.value)
  }

  /** The whole page fetch: the request helper followed by `queryFn`. */
  function FetchPage<T>(c: Collection, o: Api.Outcome<Page<T>>): (r: Result<Page<T>, string>)
    ensures r.Success? <==> o.Responded? && Api.IsOk(o.status) && o.body.Parsed?
    ensures r.Success? ==> r.value == o.body.asData
  {
    PageOrError(Api.ApiRequest(o), FallbackMessage(c))
  }

  /**
   * A fetch that throws yields no page. The error is the thrown `Error`'s
   * message; an `Error` with an empty message falls back to the collection's
   * text, while a thrown non-`Error` always reads 'Unknown network error'.
   */
  lemma FailedFetchMessage<T>(c: Collection, t: Api.Thrown)
    ensures var r := FetchPage<T>(c, Api.FetchThrew(t));
      && r.Failure?
      && r.error == (if t.OtherValue? then Api.UnknownNetworkMessage
                     else if t.message != "" then t.message
                     else FallbackMessage(c))
  {
  }

  /** A non-2xx answer with no parseable body reports the synthesised status line. */
  lemma HttpFailureMessage<T>(c: Collection, status: int, statusText: string, syntaxError: string)
    requires !Api.IsOk(status)
    ensures var r := FetchPage<T>(c, Api.Responded(status, statusText, Api.Unparseable(syntaxError)));
      && r.Failure?
      && r.error == Api.HttpStatusError(status, statusText).message.value
  {
  }

  /**
   * A non-2xx answer whose body parses reports the server's message when it
   * has a non-empty one; a `null` body, or one without a message, reports the
   * collection's fallback text.
   */
  lemma ServerErrorMessage<T>(c: Collection, status: int, statusText: string, body: Page<T>, e: Option<ApiError>)
    requires !Api.IsOk(status)
    ensures var r := FetchPage<T>(c, Api.Responded(status, statusText, Api.Parsed(body, e)));
      && r.Failure?
      && (e.Some? && e.value.message.Some? && e.value.message.value != "" ==> r.error == e.value.message.value)
      && (e.None? || e.value.message.None? || e.value.message == Some("") ==> r.error == FallbackMessage(c))
  {
  }

  // ------------------------------------------------------------ the cursor

  /** The offset of the first page. */
  const InitialPageParam: int := 0

  /**
   * `getNextPageParam`: the offset after the loaded pages, or none once it
   * reaches the last page's total. The offsets the server echoed play no part.
   */
  function NextPageParam<T>(lastPage: Page<T>, allPages: seq<Page<T>>, limit: int): (r: Option<int>)
    ensures r.Some? <==> |allPages| * limit < lastPage.total
    ensures r.Some? ==> r.value == |allPages| * limit
  {
    var currentOffset := (|allPages| - 1) * limit;
    var nextOffset := currentOffset + limit;
    if nextOffset < lastPage.total then Some(nextOffset) else None
  }

  /** The cursor depends only on how many pages are loaded and the last total. */
  lemma NextPageParamIgnoresEchoedOffsets<T>(p: seq<Page<T>>, q: seq<Page<T>>, limit: int)
    requires |p| == |q| >= 1 && p[|p| - 1].total == q[|q| - 1].total
    ensures NextPageParam(p[|p| - 1], p, limit) == NextPageParam(q[|q| - 1], q, limit)
  {
  }

  /** ⌈total / limit⌉ pages, and never fewer than the first page. */
  function PageCount(total: int, limit: int): nat
    requires limit >= 1
  {
    if total <= 0 then 1 else (total + limit - 1) / limit
  }

  lemma MulStrictMonotone(a: int, b: int, limit: int)
    requires limit >= 1 && a * limit < b * limit
    ensures a < b
  {
  }

  lemma MulStrictlyIncreasing(a: int, b: int, limit: int)
    requires a < b && limit >= 1
    ensures a * limit < b * limit
  {
    assert b * limit == a * limit + (b - a) * limit;
  }

  /**
   * The URLs the pages at `offsets` are requested from. For the cursor's
   * offsets `0, limit, 2 * limit, …` they are pairwise different, so no page
   * is requested twice.
   */
  function CursorUrls(c: Collection, offsets: seq<int>, limit: int): (urls: seq<string>)
    requires limit >= 1
    requires forall i :: 0 <= i < |offsets| ==> offsets[i] == i * limit
    ensures |urls| == |offsets|
    ensures forall i :: 0 <= i < |urls| ==> urls[i] == PageEndpoint(c, offsets[i], limit)
    ensures forall i, j :: 0 <= i < j < |urls| ==> urls[i] != urls[j]
  {
    CursorUrlsDistinct(c, offsets, limit);
    seq(|offsets|, i requires 0 <= i < |offsets| => PageEndpoint(c, offsets[i], limit))
  }

  lemma CursorUrlsDistinct(c: Collection, offsets: seq<int>, limit: int)
    requires limit >= 1
    requires forall i :: 0 <= i < |offsets| ==> offsets[i] == i * limit
    ensures forall i, j :: 0 <= i < j < |offsets| ==> PageEndpoint(c, offsets[i], limit) != PageEndpoint(c, offsets[j], limit)
  {
    forall i, j | 0 <= i < j < |offsets|
      ensures PageEndpoint(c, offsets[i], limit) != PageEndpoint(c, offsets[j], limit)
    {
      MulStrictlyIncreasing(i, j, limit);
      PageEndpointInjective(c, offsets[i], offsets[j], limit);
    }
  }

  /** `n` is ⌈total / limit⌉ when `n` pages fall short of `total` by less than one page. */
  lemma CeilDivUnique(n: int, total: int, limit: int)
    requires limit >= 1 && total > 0
    requires (n - 1) * limit < total <= n * limit
    ensures n == (total + limit - 1) / limit
  {
    var q := (total + limit - 1) / limit;
    var r := (total + limit - 1) % limit;
    assert total + limit - 1 == q * limit + r && 0 <= r < limit;
    assert q * limit < (n + 1) * limit by {
      assert q * limit <= total + limit - 1;
      assert (n + 1) * limit == n * limit + limit;
    }
    MulStrictMonotone(q, n + 1, limit);
    assert n * limit < (q + 1) * limit by {
      assert n * limit == (n - 1) * limit + limit;
      assert (q + 1) * limit == q * limit + limit;
    }
    MulStrictMonotone(n, q + 1, limit);
  }

  /**
   * Drives the cursor to its end against a server whose collection has a
   * fixed `total` and whose page at offset `o` holds `serve(o)`: the first
   * request is at offset 0, each further one `limit` past the previous, and
   * the cursor ends after ⌈total / limit⌉ pages.
   */
  method DrainPages<T>(serve: int -> seq<T>, total: int, limit: int) returns (offsets: seq<int>, pages: seq<Page<T>>)
    requires limit >= 1
    ensures |offsets| == |pages| == PageCount(total, limit)
    ensures offsets[0] == InitialPageParam
    ensures forall i :: 0 <= i < |offsets| ==> offsets[i] == i * limit
    ensures forall i :: 0 <= i < |pages| ==> pages[i].items == serve(offsets[i])
    ensures forall i :: 1 <= i < |pages| ==> NextPageParam(pages[i - 1], pages[..i], limit) == Some(offsets[i])
    ensures NextPageParam(pages[|pages| - 1], pages, limit) == None
  {
    pages := [Page(serve(InitialPageParam), total, limit, InitialPageParam)];
    var next := NextPageParam(pages[0], pages, limit);
    while next.Some?
      invariant |pages| >= 1
      invariant forall i :: 0 <= i < |pages| ==> pages[i] == Page(serve(i * limit), total, limit, i * limit)
      invariant forall i :: 1 <= i < |pages| ==> i * limit < total
      invariant next == NextPageParam(pages[|pages| - 1], pages, limit)
      decreases total - |pages| * limit
    {
      var o := next.value;
      assert (|pages| + 1) * limit == o + limit;
      pages := pages + [Page(serve(o), total, limit, o)];
      next := NextPageParam(pages[|pages| - 1], pages, limit);
    }
    offsets := seq(|pages|, i => i * limit);
    CursorChain(offsets, pages, total, limit);
    if total > 0 {
      CeilDivUnique(|pages|, total, limit);
    }
  }

  /**
   * Pages of one fixed total at the offsets `0, limit, 2 * limit, …`, every
   * later one below the total, are the chain the cursor walks: after the
   * first `i` pages it yields the `i`-th offset.
   */
  lemma CursorChain<T>(offsets: seq<int>, pages: seq<Page<T>>, total: int, limit: int)
    requires |offsets| == |pages|
    requires forall i :: 0 <= i < |pages| ==> pages[i].total == total
    requires forall i :: 0 <= i < |offsets| ==> offsets[i] == i * limit
    requires forall i :: 1 <= i < |offsets| ==> offsets[i] < total
    ensures forall i :: 1 <= i < |pages| ==> NextPageParam(pages[i - 1], pages[..i], limit) == Some(offsets[i])
  {
  }

  /**
   * The same run for one collection, with the URL each page is requested
   * from: the URLs are pairwise different, so no page is requested twice.
   */
  method DrainCursor<T>(c: Collection, serve: int -> seq<T>, total: int, limit: int)
    returns (offsets: seq<int>, urls: seq<string>, pages: seq<Page<T>>)
    requires limit >= 1
    ensures |offsets| == |urls| == |pages| == PageCount(total, limit)
    ensures forall i :: 0 <= i < |offsets| ==> offsets[i] == i * limit
    ensures forall i :: 0 <= i < |pages| ==> pages[i].items == serve(offsets[i])
    ensures forall i :: 0 <= i < |urls| ==> urls[i] == PageEndpoint(c, i * limit, limit)
    ensures forall i, j :: 0 <= i < j < |urls| ==> urls[i] != urls[j]
  {
    offsets, pages := DrainPages(serve, total, limit);
    urls := CursorUrls(c, offsets, limit);
  }

  // ------------------------------------------------------------ aggregation

  /** `pages.flatMap(page => page.items)`. */
  function Flatten<T>(pages: seq<Page<T>>): seq<T> {
    if pages == [] then [] else pages[0].items + Flatten(pages[1..])
  }

  /** The number of items across the pages. */
  function ItemCount<T>(pages: seq<Page<T>>): nat {
    if pages == [] then 0 else |pages[0].items| + ItemCount(pages[1..])
  }

  /** `query.data?.pages.flatMap(...) ?? []`. */
  function AllItems<T>(data: Option<seq<Page<T>>>): seq<T> {
    match data
    case None => []
    case Some(pages) => Flatten(pages)
  }

  /** `query.data?.pages[0]?.total ?? 0`. */
  function ReportedTotal<T>(data: Option<seq<Page<T>>>): int {
    if data.Some? && |data.value| > 0 then data.value[0].total else 0
  }

  lemma {:induction false} FlattenConcat<T>(p: seq<Page<T>>, q: seq<Page<T>>)
    ensures Flatten(p + q) == Flatten(p) + Flatten(q)
    ensures ItemCount(p + q) == ItemCount(p) + ItemCount(q)
  {
    if p == [] {
      assert p + q == q;
    } else {
      assert (p + q)[1..] == p[1..] + q;
      FlattenConcat(p[1..], q);
    }
  }

  /** Loading one more page appends exactly its items after the ones shown. */
  lemma LoadMoreAppends<T>(pages: seq<Page<T>>, next: Page<T>)
    ensures AllItems(Some(pages + [next])) == AllItems(Some(pages)) + next.items
  {
    FlattenConcat(pages, [next]);
    assert Flatten([next]) == next.items + Flatten<T>([]);
  }

  /** The aggregate holds exactly the items of all pages. */
  lemma {:induction false} FlattenLength<T>(pages: seq<Page<T>>)
    ensures |Flatten(pages)| == ItemCount(pages)
  {
    if pages != [] {
      FlattenLength(pages[1..]);
    }
  }

  /**
   * In order: item `j` of page `i` sits after every item of the earlier
   * pages.
   */
  lemma FlattenIndex<T>(pages: seq<Page<T>>, i: int, j: int)
    requires 0 <= i < |pages| && 0 <= j < |pages[i].items|
    ensures ItemCount(pages[..i]) + j < |Flatten(pages)|
    ensures Flatten(pages)[ItemCount(pages[..i]) + j] == pages[i].items[j]
  {
    assert pages == pages[..i] + pages[i..];
    FlattenConcat(pages[..i], pages[i..]);
    FlattenLength(pages[..i]);
    FlattenLength(pages);
    assert Flatten(pages[i..]) == pages[i].items + Flatten(pages[i + 1..]);
  }

  /** The reported total is fixed by the first page and ignores later pages. */
  lemma ReportedTotalIsFirstPages<T>(pages: seq<Page<T>>, more: seq<Page<T>>)
    requires |pages| >= 1
    ensures ReportedTotal(Some(pages + more)) == ReportedTotal(Some(pages)) == pages[0].total
    ensures ReportedTotal<T>(None) == 0 && ReportedTotal<T>(Some([])) == 0
  {
  }

  /**
   * Five items in pages of two: after two pages the cursor asks for offset 4;
   * after the third it ends, with all five items shown. The total reported is
   * the first page's even when a later page says otherwise.
   */
  lemma FivePagesExample()
    ensures var p1, p2, p3 := Page([1, 2], 5, 2, 0), Page([3, 4], 5, 2, 2), Page([5], 5, 2, 4);
      && AllItems(Some([p1, p2])) == [1, 2, 3, 4]
      && NextPageParam(p2, [p1, p2], 2) == Some(4)
      && AllItems(Some([p1, p2, p3])) == [1, 2, 3, 4, 5]
      && NextPageParam(p3, [p1, p2, p3], 2) == None
      && ReportedTotal(Some([p1, p2, Page([6], 9, 2, 4)])) == 5
  {
    var p1, p2, p3 := Page([1, 2], 5, 2, 0), Page([3, 4], 5, 2, 2), Page([5], 5, 2, 4);
    LoadMoreAppends([p1], p2);
    LoadMoreAppends([p1, p2], p3);
    assert [p1] + [p2] == [p1, p2];
    assert [p1, p2] + [p3] == [p1, p2, p3];
    assert Flatten([p1]) == [1, 2] + Flatten<int>([]);
  }
}

=== FILE: result_card.dfy ===
/**
 * What the card of one image result shows (src/components/ir-tasks/ResultCard.tsx):
 * the status label, the duration and confidence guards, which panels
 * appear, and the detection counts. Number formatting is not modelled:
 * a shown figure is the unscaled value `toFixed` would format, the duration
 * in milliseconds and the score in [0, 1].
 */
module ResultCard {

  import opened Wrappers
  import opened ApiTypes
  import Text

  /** The badge label for a status; unrecognised statuses read 'Unknown'. */
  function StatusLabel(status: string): (r: string)
    ensures r == "Processing" <==> status == InProgress
    ensures r == "Completed" <==> status == Completed
    ensures r == "Failed" <==> status == Failed
    ensures r == "Unknown" <==> !KnownStatus(status)
  {
    if status == InProgress then "Processing"
    else if status == Completed then "Completed"
    else if status == Failed then "Failed"
    else "Unknown"
  }

  /** A figure that is either shown or replaced by 'N/A'. */
  datatype Shown = NotAvailable | Figure(value: real)

  /** `formatDuration`: milliseconds, shown only when present and positive. */
  function FormatDuration(duration: Option<real>): (r: Shown)
    ensures r.NotAvailable? <==> duration.None? || duration.value <= 0.0
    ensures r.Figure? ==> r.value == duration.value && r.value > 0.0
  {
    if duration.None? || duration.value <= 0.0 then NotAvailable else Figure(duration.value)
  }

  /** The confidence figure: only a completed result with a score shows one. */
  function FormatConfidence(result: ImageResult): (r: Shown)
    ensures r.Figure? <==> result.status == Completed && result.confidenceScore.Some?
    ensures r.Figure? ==> r.value == result.confidenceScore.value
  {
    if result.status == Completed && result.confidenceScore.Some? then Figure(result.confidenceScore.value)
    else NotAvailable
  }

  /** The error panel: `failure_reason` is present and non-empty. */
  predicate ShowsFailurePanel(result: ImageResult) {
    Text.Truthy(result.failureReason)
  }

  /** The 'View Processed Image' action: a non-empty URL on a completed result. */
  predicate OffersProcessedImage(result: ImageResult) {
    result.imageUrl != "" && result.status == Completed
  }

  /**
   * The error panel depends on `failure_reason` alone: a missing or empty
   * reason hides it, any other reason shows it whatever the status, so even
   * a completed result with a reason shows the panel.
   */
  lemma FailurePanelOnlyFromReason(result: ImageResult, status: string, reason: string)
    ensures !ShowsFailurePanel(result.(failureReason := None))
    ensures !ShowsFailurePanel(result.(failureReason := Some("")))
    ensures reason != "" ==> ShowsFailurePanel(result.(failureReason := Some(reason), status := status))
    ensures ShowsFailurePanel(result.(status := status)) == ShowsFailurePanel(result)
  {
  }

  /**
   * The 'View Processed Image' action needs both conjuncts: no URL or a
   * status other than COMPLETED hides it; a URL on a completed result shows
   * it, whatever the failure reason.
   */
  lemma ProcessedImageNeedsBoth(result: ImageResult, url: string, reason: Option<string>)
    ensures !OffersProcessedImage(result.(imageUrl := ""))
    ensures result.status != Completed ==> !OffersProcessedImage(result)
    ensures url != "" ==> OffersProcessedImage(result.(imageUrl := url, status := Completed, failureReason := reason))
  {
  }

  /** `shares.reduce((acc, share) => acc + share.values.length, acc)`. */
  function ReduceShares(shares: seq<Share>, acc: nat): nat {
    if shares == [] then acc else ReduceShares(shares[1..], acc + |shares[0].values|)
  }

  /** The number of share values across all shares. */
  function ShareValueCount(shares: seq<Share>): nat {
    if shares == [] then 0 else |shares[0].values| + ShareValueCount(shares[1..])
  }

  /** The left fold from `acc` adds the number of share values to `acc`. */
  lemma {:induction false} ReduceSharesCounts(shares: seq<Share>, acc: nat)
    ensures ReduceShares(shares, acc) == acc + ShareValueCount(shares)
  {
    if shares != [] {
      ReduceSharesCounts(shares[1..], acc + |shares[0].values|);
    }
  }

  lemma {:induction false} ShareValueCountConcat(a: seq<Share>, b: seq<Share>)
    ensures ShareValueCount(a + b) == ShareValueCount(a) + ShareValueCount(b)
  {
    if a == [] {
      assert a + b == b;
    } else {
      assert (a + b)[1..] == a[1..] + b;
      ShareValueCountConcat(a[1..], b);
    }
  }

  /** The three figures of the detection section. */
  datatype DetectionCounts = DetectionCounts(gaps: nat, items: nat, shares: nat)

  /**
   * The detection section: present exactly for a completed result with
   * postprocessing output that includes a realogram.
   */
  function DetectionSection(result: ImageResult): (r: Option<DetectionCounts>)
    ensures r.Some? <==>
      && result.status == Completed
      && result.postprocessingResults.Some?
      && result.postprocessingResults.value.realogram.Some?
    ensures r.Some? ==>
      var pp := result.postprocessingResults.value;
      && r.value.gaps == |pp.realogram.value.gaps|
      && r.value.items == |pp.realogram.value.itemEntries|
      && r.value.shares == ShareValueCount(pp.shares)
  {
    if result.status == Completed && result.postprocessingResults.Some?
       && result.postprocessingResults.value.realogram.Some?
    then
      var pp := result.postprocessingResults.value;
      ReduceSharesCounts(pp.shares, 0);
      Some(DetectionCounts(|pp.realogram.value.gaps|, |pp.realogram.value.itemEntries|, ReduceShares(pp.shares, 0)))
    else None
  }

  /** The abbreviated id badge. */
  function IdBadge(result: ImageResult): (r: string)
    ensures |result.uuid| >= 8 ==> r == result.uuid[..8] + "..."
    ensures |result.uuid| < 8 ==> r == result.uuid + "..."
  {
    Text.ShortId(result.uuid)
  }

  const FixtureUuid: string := "123e4567-e89b-12d3-a456-426614174000"

  function Fixture(status: string, failureReason: Option<string>, duration: Option<real>,
                   pp: Option<PostprocessingResults>, confidence: Option<real>): ImageResult {
    ImageResult(FixtureUuid, "123e4567-e89b-12d3-a456-426614174001", "https://example.com/image.jpg",
                status, failureReason, duration, "2025-01-13T12:00:00Z", "2025-01-13T12:00:00Z", pp, confidence)
  }

  /**
   * The component fixtures: the default in-progress result shows
   * 'Processing', the badge '123e4567...' and two 'N/A's; the failed result
   * with score 0.0 shows no confidence; the completed result shows two gaps,
   * two items and two share values; a zero duration shows 'N/A'.
   */
  lemma FixtureRenderings()
    ensures var r := Fixture(InProgress, None, None, Some(PostprocessingResults(None, [])), None);
      && StatusLabel(r.status) == "Processing"
      && IdBadge(r) == "123e4567..."
      && FormatDuration(r.duration).NotAvailable? && FormatConfidence(r).NotAvailable?
      && DetectionSection(r).None? && !OffersProcessedImage(r)
    ensures var r := Fixture(Failed, Some("Image processing failed due to invalid format"), None,
                             Some(PostprocessingResults(None, [])), Some(0.0));
      && StatusLabel(r.status) == "Failed"
      && FormatDuration(r.duration).NotAvailable? && FormatConfidence(r).NotAvailable?
      && ShowsFailurePanel(r)
    ensures var gaps := [Gap(1, 2, 0, [0.0, 0.0, 100.0, 100.0]), Gap(1, 3, 0, [100.0, 0.0, 200.0, 100.0])];
            var entries := [ItemEntry(1, 1, 1, 0), ItemEntry(2, 1, 4, 0)];
            var v1 := ShareValue("products", Some("prod-1"), None, 5, 0.5, 1000.0, 0.6);
            var v2 := ShareValue("tags", None, Some("tag-1"), 3, 0.3, 500.0, 0.3);
            var pp := PostprocessingResults(Some(Realogram(gaps, entries)), [Share(1, [v1, v2])]);
            var r := Fixture(Completed, None, Some(2500.0), Some(pp), Some(0.95));
      && DetectionSection(r) == Some(DetectionCounts(2, 2, 2))
      && OffersProcessedImage(r)
      && FormatDuration(r.duration) == Figure(2500.0)
    ensures FormatDuration(Some(0.0)).NotAvailable?
  {
  }
}

=== FILE: task_results.dfy ===
/**
 * The processing-history header of a task (src/components/ir-tasks/TaskResultsSection.tsx):
 * the per-status tallies and the " • "-separated summary line.
 */
module TaskResults {

  import opened Wrappers
  import opened ApiTypes
  import Decimal
  import Text

  /** `taskResults?.items || []`. */
  function Results(items: Option<seq<ImageResult>>): seq<ImageResult> {
    items.GetOr([])
  }

  /** The number of results whose status is exactly `status`. */
  function CountStatus(results: seq<ImageResult>, status: string): (n: nat)
    ensures n <= |results|
  {
    if results == [] then 0
    else (if results[0].status == status then 1 else 0) + CountStatus(results[1..], status)
  }

  datatype Tallies = Tallies(inProgress: nat, completed: nat, failed: nat) {
    function Sum(): nat {
      inProgress + completed + failed
    }
  }

  function Tally(results: seq<ImageResult>): Tallies {
    Tallies(CountStatus(results, InProgress), CountStatus(results, Completed), CountStatus(results, Failed))
  }

  /** One result adds one to the tallies exactly when its status is known. */
  lemma TallyStep(results: seq<ImageResult>)
    requires results != []
    ensures Tally(results).Sum() == (if KnownStatus(results[0].status) then 1 else 0) + Tally(results[1..]).Sum()
  {
  }

  /** The number of results whose status is none of the three known ones. */
  function CountUnknown(results: seq<ImageResult>): (n: nat)
    ensures n <= |results|
  {
    if results == [] then 0
    else (if KnownStatus(results[0].status) then 0 else 1) + CountUnknown(results[1..])
  }

  /** Every result is counted exactly once: in one of the three tallies, or as unknown. */
  lemma {:induction false} TallyPartition(results: seq<ImageResult>)
    ensures Tally(results).Sum() + CountUnknown(results) == |results|
  {
    if results != [] {
      TallyStep(results);
      TallyPartition(results[1..]);
    }
  }

  /** No result is unknown exactly when every status is a known one. */
  lemma {:induction false} NoUnknownIff(results: seq<ImageResult>)
    ensures CountUnknown(results) == 0 <==> forall i :: 0 <= i < |results| ==> KnownStatus(results[i].status)
  {
    if results != [] {
      var rest := results[1..];
      NoUnknownIff(rest);
      assert forall i :: 1 <= i < |results| ==> results[i] == rest[i - 1];
    }
  }

  /**
   * The tallies never exceed the number of results, and reach it exactly
   * when every status is one of the three known ones.
   */
  lemma TallySum(results: seq<ImageResult>)
    ensures Tally(results).Sum() <= |results|
    ensures Tally(results).Sum() == |results| <==> forall i :: 0 <= i < |results| ==> KnownStatus(results[i].status)
  {
    TallyPartition(results);
    NoUnknownIff(results);
  }

  const Separator: string := " • "

  /** The summary as the header renders its five conditional children. */
  function Summary(t: Tallies): string {
    (if t.inProgress > 0 then Decimal.NatToString(t.inProgress) + " processing" else "")
    + (if t.inProgress > 0 && (t.completed > 0 || t.failed > 0) then Separator else "")
    + (if t.completed > 0 then Decimal.NatToString(t.completed) + " completed" else "")
    + (if t.completed > 0 && t.failed > 0 then Separator else "")
    + (if t.failed > 0 then Decimal.NatToString(t.failed) + " failed" else "")
  }

  /** The non-zero segments, in the order processing, completed, failed. */
  function Segments(t: Tallies): (s: seq<string>)
    ensures |s| == (if t.inProgress > 0 then 1 else 0) + (if t.completed > 0 then 1 else 0) + (if t.failed > 0 then 1 else 0)
  {
    (if t.inProgress > 0 then [Decimal.NatToString(t.inProgress) + " processing"] else [])
    + (if t.completed > 0 then [Decimal.NatToString(t.completed) + " completed"] else [])
    + (if t.failed > 0 then [Decimal.NatToString(t.failed) + " failed"] else [])
  }

  /**
   * The separators sit exactly between non-zero segments: the summary is
   * the non-zero segments joined by " • ".
   */
  lemma SummaryJoinsSegments(t: Tallies)
    ensures Summary(t) == Text.Join(Separator, Segments(t))
  {
    var a := Decimal.NatToString(t.inProgress) + " processing";
    var b := Decimal.NatToString(t.completed) + " completed";
    var c := Decimal.NatToString(t.failed) + " failed";
    var s := Segments(t);
    if |s| == 3 {
      assert s == [a, b, c];
      assert Text.Join(Separator, [b, c]) == b + Separator + c;
      assert Text.Join(Separator, s) == a + Separator + (b + Separator + c);
    } else if |s| == 2 {
      assert Text.Join(Separator, s) == s[0] + Separator + s[1];
    }
  }

  /** The empty-history message is shown exactly when there are no results. */
  predicate ShowsNoResultsMessage(results: seq<ImageResult>) {
    |results| == 0
  }

  /** Missing data reads as an empty history: the message, and an empty summary. */
  lemma MissingDataIsEmptyHistory()
    ensures ShowsNoResultsMessage(Results(None))
    ensures Summary(Tally(Results(None))) == ""
  {
  }
}

=== FILE: text.dfy ===
/** String operations the views use, stated as JavaScript defines them. */
module Text {

  import opened Wrappers

  /** `s.indexOf(c)`: the first position of `c` in `s`, or -1. */
  function IndexOf(s: string, c: char): (k: int)
    ensures -1 <= k < |s|
    ensures k == -1 <==> c !in s
    ensures k >= 0 ==> s[k] == c && c !in s[..k]
  {
    if s == [] then -1
    else if s[0] == c then 0
    else
      var k := IndexOf(s[1..], c);
      if k < 0 then -1 else k + 1
  }

  /**
   * `s.replace(a, b)` with a one-character string pattern: only the FIRST
   * occurrence of `a` is replaced.
   */
  function ReplaceFirst(s: string, a: char, b: char): (r: string)
    ensures |r| == |s|
    ensures forall i :: 0 <= i < |s| ==> r[i] == (if i == IndexOf(s, a) then b else s[i])
  {
    if s == [] then []
    else if s[0] == a then [b] + s[1..]
    else [s[0]] + ReplaceFirst(s[1..], a, b)
  }

  /** JavaScript truthiness of a nullable string: present and non-empty. */
  predicate Truthy(s: Option<string>) {
    s.Some? && s.value != ""
  }

  /** A string in which `a` does not occur is left unchanged. */
  lemma ReplaceFirstAbsent(s: string, a: char, b: char)
    requires a !in s
    ensures ReplaceFirst(s, a, b) == s
  {
  }

  /** `s.slice(0, 8) + '...'`: the abbreviated identifier badge. */
  function ShortId(uuid: string): (r: string)
    ensures |r| >= 3 && r[|r| - 3..] == "..."
    ensures |uuid| >= 8 ==> |r| == 11 && r[..8] == uuid[..8]
    ensures |uuid| < 8 ==> r[..|r| - 3] == uuid
  {
    (if |uuid| <= 8 then uuid else uuid[..8]) + "..."
  }

  /** `parts.join(sep)`. */
  function Join(sep: string, parts: seq<string>): string
  {
    if |parts| == 0 then ""
    else if |parts| == 1 then parts[0]
    else parts[0] + sep + Join(sep, parts[1..])
  }
}

=== FILE: wrappers.dfy ===
/** Option and Result types shared by the whole model. */
module Wrappers {

  /** A value that may be absent: JavaScript's `undefined`/`null`. */
  datatype Option<+T> = None | Some(value: T) {

    /** The value, or `default` when absent (the `??` operator). */
    function GetOr(default: T): T {
      match this
      case Some(v) => v
      case None => default
    }
  }

  /** The outcome of an operation that either yields a value or throws. */
  datatype Result<+R, +E> = Success(value: R) | Failure(error: E)
}
